=== FILE: README.md ===
# News story editor: story-collection state machine

A Dafny model of the story list behind a browser tool that turns a
comma-separated batch of article addresses into rewritten news stories, lets
the operator edit, add and regenerate individual stories, and asks a remote
service for a radio intro built from all of them.

Every event handler of `src/App.tsx` is modelled as a pure function from the
editor state (`App.AppState`: the URL text box, the list of `Story` records,
the intro text box) and the network's answer to the next state. A remote
call is a parameter mapping the request argument to its settled outcome
(`Outcomes.Settled`: fulfilled with a response body, or rejected with the
thrown value), so "what the handler sends" and "what it does with the
answer" are both visible in the contracts.

Modules:

- `Outcomes`: optional values, thrown values and the fallback failure message,
  settled outcomes.
- `Text`: `trim`, `split` on one character, `join`, and the URL parse
  `split(',').map(trim).filter(nonEmpty)`, with the split/join round trips.
- `Stories`: the `Story` record, lookup by id (`find`), rewrite by id
  (`map` with an id test), and the `stories[i].id == i + 1` numbering.
- `App`: the handlers, the regeneration button's path choice, and sessions
  of operator actions with the proof that numbering, and so id uniqueness,
  survives every session.

## Model

| member | source | states |
|---|---|---|
| Text.Trim | src/App.tsx:25 | the trimmed string has no whitespace at either end, is no longer than the input and holds only input characters |
| Text.TrimUnique | src/App.tsx:25 | whatever whitespace surrounds a trimmed non-empty core, trimming returns exactly that core |
| Text.TrimEmptyIffBlank | src/App.tsx:22 | `urls.trim()` is empty (falsy) exactly when every character is whitespace |
| Text.Split | src/App.tsx:25 | `split(',')` yields at least one piece, no piece contains the separator, and pieces hold only input characters |
| Text.JoinSplit | src/App.tsx:25 | joining the pieces of a split with the separator restores the input |
| Text.SplitJoin | src/App.tsx:25 | separator-free pieces joined with the separator split back into the same pieces |
| Text.SplitAround | src/App.tsx:25 | the pieces of `a + "," + b` are the pieces of `a` followed by those of `b` |
| Text.NonEmpty | src/App.tsx:25 | `filter(url => url)` keeps only non-empty strings, each drawn from the input, and keeps every non-empty string exactly as often as it occurs in the input |
| Text.ParseUrls | src/App.tsx:25 | every parsed entry is non-empty, comma-free and trimmed, and there are no more entries than pieces |
| Text.TrimmedPiecesAreEntries | src/App.tsx:25 | trimming comma-free pieces and dropping empty ones leaves only well-formed entries |
| Text.ParseUrlsAround | src/App.tsx:25 | parsing keeps input order: entries of `a + "," + b` are entries of `a` then entries of `b` |
| Text.ParseUrlsSingle | src/App.tsx:25 | comma-free text parses to its trimmed self, or to nothing when blank |
| Text.ParseUrlsBlank | src/App.tsx:22-25 | whitespace-only text parses to no entry |
| Text.ParseTwoUrls | src/App.tsx:25 | two addresses written with a comma and a space parse to exactly those two addresses |
| Text.Join | src/App.tsx:59 | `join` of no pieces is the empty string; otherwise the result starts with the first piece and is at least as long as the first piece plus one separator per pair of neighbours |
| Text.JoinEmptyIff | src/App.tsx:59-60 | a join with a non-empty separator is empty exactly for no piece or one empty piece |
| Text.JoinAppend | src/App.tsx:59 | appending a piece appends the separator and that piece to the join |
| Stories.WellNumberedUnique | src/App.tsx:164 | when every story's id is its position plus one, no two stories share an id (the list's React key) |
| Stories.Find | src/App.tsx:88 | `find` returns nothing exactly when no story carries the id, and otherwise the first story that does |
| Stories.FindWellNumbered | src/App.tsx:88 | in a well-numbered list id `k` finds the story at position `k - 1`, and ids outside `1..n` find nothing |
| Outcomes.FailureMessage | src/App.tsx:44 | a thrown `Error` yields its own message and any other thrown value yields `"An unknown error occurred"` |
| App.BatchStory | src/App.tsx:27-47 | the story for entry `i` has id `i + 1`, its own address, and records the response verbatim or, for a thrown call, empty content, no sources, confidence 0 and the thrown message |
| App.Generate | src/App.tsx:21-50 | blank text changes nothing; otherwise there is one story per parsed entry, in order, with id `i + 1`, the `i`-th address and the `i`-th call's outcome, replacing the old list |
| App.GenerateNumbering | src/App.tsx:26-50 | a batch leaves the list numbered by position |
| App.GenerateEntryIndependent | src/App.tsx:27-48 | story `k` of a batch depends only on the call for entry `k`, so one entry's failure cannot affect another |
| App.GenerateSeparatorsOnly | src/App.tsx:22-50 | non-blank text with no entries (such as `", ,"`) empties the list |
| App.GenerateBlankIsNoOp | src/App.tsx:22 | whitespace-only text leaves the whole state unchanged and would parse to nothing anyway |
| App.GenerateTwoUrls | src/App.tsx:25-50 | `"a, b"` gives two stories with ids 1 and 2 carrying `a` and `b` |
| App.EditStory | src/App.tsx:104-108 | the story with the id gets the new content; length, order, ids, addresses, sources, confidence and errors are kept and other stories are identical |
| App.EditReadBack | src/App.tsx:104-107 | reading the edited story back finds that same story with exactly the new content |
| App.EditMissingIsNoOp | src/App.tsx:104-107 | editing an id no story carries changes nothing |
| App.EditCommutesWithRegeneration | src/App.tsx:104-107 | an edit and a regeneration of different ids commute, so an edit survives an unrelated regeneration |
| App.AddTextStory | src/App.tsx:110-120 | exactly one story is appended, with id `length + 1`, empty content and address, no sources, confidence 0 and no error; earlier stories are untouched and numbering is preserved |
| App.AddToEmpty | src/App.tsx:110-120 | adding to an empty list gives the single story with id 1 |
| App.ApplyRegeneration | src/App.tsx:76-81 | a successful regeneration takes content, sources, confidence and error of the matching stories verbatim from the response; ids and addresses never change, other stories are identical, a thrown call changes nothing |
| App.Regenerate | src/App.tsx:72-85 | the address path makes no change for an empty address or a thrown call and otherwise applies the response for that address to the matching stories only |
| App.TextRegenerate | src/App.tsx:87-102 | the text path makes no change when no story has the id and otherwise sends the first matching story's current content and applies the response to the matching stories only |
| App.RegenerationInput | src/App.tsx:87-92 | the button sends the address when the story has one; otherwise it makes a call exactly when some story carries the id, and that call sends the content of the first story carrying the id |
| App.ClickRegenerate | src/App.tsx:194 | a story with an address takes the address path and one without takes the free-text path; no input means no change, and otherwise the outcome of the call on the input is applied to the story's id |
| App.ClickListedStory | src/App.tsx:192-198 | the button of a listed story always calls, with the address or else with the story's own content |
| App.AddedStoryTakesTextPath | src/App.tsx:110-119 | an added story has an empty address, so its button takes the text path and sends its content |
| App.RegenerationSendsInput | src/App.tsx:87-96 | the outcome of a button press depends only on the network's answer to the argument sent |
| App.IntroInput | src/App.tsx:59 | the intro input of no story is empty, of one story is its content, and of n ≥ 2 stories is the join of all but the last content, then `", "`, then the last story's content, so at least 2(n − 1) characters long |
| App.IntroRequest | src/App.tsx:58-60 | the intro call is skipped exactly for no story or a single story with empty content, and otherwise sends all contents joined with `", "` |
| App.IntroInputAppend | src/App.tsx:59 | each story, empty or not, contributes a separator and its content to the intro input |
| App.TwoBlankStoriesCallIntro | src/App.tsx:59-60 | two stories with empty content send `", "` rather than skipping |
| App.GenerateIntro | src/App.tsx:58-70 | only the intro text can change: it becomes the response content on success and is kept when the call is skipped or throws |
| App.Step | src/App.tsx:144-221 | every operator action keeps the list numbered by position |
| App.RunKeepsNumbering | src/App.tsx:21-120 | every session of actions keeps `stories[i].id == i + 1` |
| App.ReachableIdsUnique | src/App.tsx:163-165 | in every state reachable from the empty editor ids are unique and id `k` finds the story at position `k - 1` |

## Left out

- Network calls: `generateNewsStory` and `generateRadioIntro` (`src/services/gemini.ts`) are HTTP requests to a remote endpoint; they are parameters (`App.StoryCall`, `App.BatchCalls`, `App.IntroCall`) returning a settled outcome, and what the endpoint computes is not modelled.
- `processResult` and `extractCategory` in `src/services/gemini.ts`: unused helpers over an unseen SDK response shape, a regular expression and a floating-point mean.
- The `category` field of the generation response is never read by the editor and is dropped.
- `overallConfidence` is an opaque real that is stored and compared, never computed; its two-decimal display is rendering.
- Concurrency: `Promise.all` interleaving, and the handlers at lines 77 and 94 mapping over the list captured before the await (a stale list can overwrite a newer one). Each handler is one atomic step on the current state.
- The `isGenerating` and `loadingId` flags only disable buttons and change labels; they do not change the story list.
- `handleApprove` only logs; audio synthesis and `src/AudioPlayback.tsx` are rendering with no state logic.
- Console logging in the `catch` blocks, `adjustTextAreaHeight`, and all rendering.
- The outer `catch` at line 51 cannot be reached: every per-entry call catches its own failure, so `Promise.all` never rejects.
- Optional `Story` fields: `sources`, `overallConfidence` and `url` are set on every creation path, so they are plain fields; a response body lacking a field is outside the model.
- Text.Trim: strips a fixed subset of whitespace (space, tab, line feed, vertical tab, form feed, carriage return, no-break space, line and paragraph separators, byte-order mark) rather than every Unicode space separator JavaScript's `trim` strips.
- A failed regeneration or intro call changes nothing, and no error is recorded on the story. A free-text story has the empty address `""`. Ids are position-based (`length + 1`) with no global counter.

=== FILE: app.dfy ===
/** The editor's event handlers as pure state transitions.

    Each handler awaits a remote call in `src/App.tsx`; here the call is a
    parameter that maps the request argument to the settled outcome, so a
    handler is a function from the state and the network's answer to the
    next state, taken as one atomic step.
 */
module App {
  import opened Outcomes
  import opened Text
  import opened Stories

  /** The editor's state: the URL text box, the story list and the radio
      intro text box ("titles of the day"). */
  datatype AppState = AppState(urls: string, stories: seq<Story>, dayTitles: string)

  const Initial: AppState := AppState("", [], "")

  /** The generation endpoint during one single-story handler: the settled
      result of a call with the given argument. */
  type StoryCall = string -> Settled<GeneratedStory>

  /** The generation endpoint during one batch: the settled result of the
      call issued for entry `i` with the given address. Two entries with the
      same address may settle differently. */
  type BatchCalls = (nat, string) -> Settled<GeneratedStory>

  /** The body the intro endpoint responds with. */
  datatype IntroResponse = IntroResponse(content: string, error: Option<string>)

  type IntroCall = string -> Settled<IntroResponse>

  // ---------------------------------------------------------------------
  // Batch submission
  // ---------------------------------------------------------------------

  /** What a story built from one settled call records: the response body
      verbatim, or for a thrown call empty content, no sources, confidence
      0 and the thrown message. */
  predicate RecordsOutcome(st: Story, outcome: Settled<GeneratedStory>) {
    match outcome
    case Fulfilled(g) =>
      && st.content == g.content && st.sources == g.sources
      && st.overallConfidence == g.overallConfidence && st.error == g.error
    case Rejected(t) =>
      && st.content == "" && st.sources == []
      && st.overallConfidence == 0.0 && st.error == Some(FailureMessage(t))
  }

  /** The story built for entry `index` of a batch. */
  function BatchStory(index: nat, url: string, outcome: Settled<GeneratedStory>): (r: Story)
    ensures r.id == index + 1 && r.url == url && RecordsOutcome(r, outcome)
  {
    match outcome
    case Fulfilled(g) => Story(index + 1, g.content, g.error, g.sources, g.overallConfidence, url)
    case Rejected(t) => Story(index + 1, "", Some(FailureMessage(t)), [], 0.0, url)
  }

  /** `handleGenerate`. Blank URL text is a no-op. Otherwise every parsed
      entry becomes exactly one story, in input order, numbered from 1,
      carrying its own address and its own call's outcome; the new list
      replaces the old one wholesale. */
  function Generate(s: AppState, calls: BatchCalls): (r: AppState)
    ensures r.urls == s.urls && r.dayTitles == s.dayTitles
    ensures Trim(s.urls) == "" ==> r == s
    ensures Trim(s.urls) != "" ==>
      var entries := ParseUrls(s.urls);
      && |r.stories| == |entries|
      && forall i :: 0 <= i < |entries| ==>
        && r.stories[i].id == i + 1
        && r.stories[i].url == entries[i]
        && RecordsOutcome(r.stories[i], calls(i, entries[i]))
  {
    if Trim(s.urls) == "" then s
    else
      var entries := ParseUrls(s.urls);
      var built := seq(|entries|, i requires 0 <= i < |entries| => BatchStory(i, entries[i], calls(i, entries[i])));
      assert forall i :: 0 <= i < |entries| ==> built[i] == BatchStory(i, entries[i], calls(i, entries[i]));
      s.(stories := built)
  }

  /** A batch always leaves the list well numbered: either it is untouched
      or every story was numbered by its position. */
  lemma GenerateNumbering(s: AppState, calls: BatchCalls)
    requires WellNumbered(s.stories)
    ensures WellNumbered(Generate(s, calls).stories)
  {
  }

  /** Failure isolation: story `k` of a batch depends on the call issued
      for entry `k` and on nothing else, so another entry's failure cannot
      change it. */
  lemma {:induction false} GenerateEntryIndependent(s: AppState, c1: BatchCalls, c2: BatchCalls, k: nat)
    requires Trim(s.urls) != "" && k < |ParseUrls(s.urls)|
    requires c1(k, ParseUrls(s.urls)[k]) == c2(k, ParseUrls(s.urls)[k])
    ensures Generate(s, c1).stories[k] == Generate(s, c2).stories[k]
  {
    var e := ParseUrls(s.urls)[k];
    var a, b := Generate(s, c1).stories[k], Generate(s, c2).stories[k];
    assert a.id == b.id && a.url == b.url;
    match c1(k, e)
    case Fulfilled(g) =>
      assert RecordsOutcome(a, c1(k, e)) && RecordsOutcome(b, c2(k, e));
    case Rejected(t) =>
      assert RecordsOutcome(a, c1(k, e)) && RecordsOutcome(b, c2(k, e));
  }

  /** Text of separators and blanks that is not itself blank (`", ,"`)
      parses to no entry and empties the list, unlike blank text, which
      keeps it. */
  lemma GenerateSeparatorsOnly(s: AppState, calls: BatchCalls)
    requires Trim(s.urls) != "" && ParseUrls(s.urls) == []
    ensures Generate(s, calls).stories == []
  {
  }

  /** Blank text keeps the list, and it is exactly the text that would
      parse to no entry at all. */
  lemma GenerateBlankIsNoOp(s: AppState, calls: BatchCalls)
    requires AllWhitespace(s.urls)
    ensures Generate(s, calls) == s
    ensures ParseUrls(s.urls) == []
  {
    TrimEmptyIffBlank(s.urls);
    ParseUrlsBlank(s.urls);
  }

  /** Two comma-separated addresses give two stories with ids 1 and 2, each
      carrying its own trimmed address. */
  lemma GenerateTwoUrls(s: AppState, calls: BatchCalls, a: string, b: string)
    requires IsEntry(a) && IsEntry(b)
    requires s.urls == a + ", " + b
    ensures |Generate(s, calls).stories| == 2
    ensures Generate(s, calls).stories[0].id == 1 && Generate(s, calls).stories[0].url == a
    ensures Generate(s, calls).stories[1].id == 2 && Generate(s, calls).stories[1].url == b
  {
    ParseTwoUrls(a, b);
    TrimEmptyIffBlank(s.urls);
    assert s.urls[0] == a[0];
  }

  // ---------------------------------------------------------------------
  // Editing and adding stories
  // ---------------------------------------------------------------------

  /** `handleStoryChange`: every story carrying `id` gets the new content;
      nothing else in the state changes. */
  function EditStory(s: AppState, id: int, newContent: string): (r: AppState)
    ensures r.urls == s.urls && r.dayTitles == s.dayTitles
    ensures |r.stories| == |s.stories|
    ensures forall i :: 0 <= i < |s.stories| ==>
      && r.stories[i].id == s.stories[i].id
      && r.stories[i].url == s.stories[i].url
      && r.stories[i].sources == s.stories[i].sources
      && r.stories[i].overallConfidence == s.stories[i].overallConfidence
      && r.stories[i].error == s.stories[i].error
    ensures forall i :: 0 <= i < |s.stories| && s.stories[i].id == id ==> r.stories[i].content == newContent
    ensures forall i :: 0 <= i < |s.stories| && s.stories[i].id != id ==> r.stories[i] == s.stories[i]
  {
    s.(stories := UpdateWhere(s.stories, id, (st: Story) => st.WithContent(newContent)))
  }

  /** Reading an edited story back yields exactly the text written. */
  lemma EditReadBack(s: AppState, id: int, newContent: string)
    requires WellNumbered(s.stories) && 1 <= id <= |s.stories|
    ensures Find(EditStory(s, id, newContent).stories, id) == Some(s.stories[id - 1].(content := newContent))
  {
    var r := EditStory(s, id, newContent);
    assert WellNumbered(r.stories);
    FindWellNumbered(r.stories, id);
  }

  /** Editing an id no story carries changes nothing. */
  lemma EditMissingIsNoOp(s: AppState, id: int, newContent: string)
    requires !HasId(s.stories, id)
    ensures EditStory(s, id, newContent) == s
  {
    var r := EditStory(s, id, newContent);
    assert r.stories == s.stories;
  }

  /** `handleAddTextStory`: appends exactly one blank free-text story,
      numbered one past the current length; the earlier stories are kept. */
  function AddTextStory(s: AppState): (r: AppState)
    ensures r.urls == s.urls && r.dayTitles == s.dayTitles
    ensures |r.stories| == |s.stories| + 1
    ensures r.stories[..|s.stories|] == s.stories
    ensures r.stories[|s.stories|] == Story(|s.stories| + 1, "", None, [], 0.0, "")
    ensures WellNumbered(s.stories) ==> WellNumbered(r.stories)
  {
    s.(stories := s.stories + [Story(|s.stories| + 1, "", None, [], 0.0, "")])
  }

  /** Adding to an empty list gives one story with id 1, no content and no
      address. */
  lemma AddToEmpty(s: AppState)
    requires s.stories == []
    ensures AddTextStory(s).stories == [Story(1, "", None, [], 0.0, "")]
  {
  }

  // ---------------------------------------------------------------------
  // Regeneration
  // ---------------------------------------------------------------------

  /** The update both regeneration handlers apply once their call settles:
      on success the content, sources, confidence and error of every story
      carrying `id` are taken verbatim from the response, and everything
      else is kept; a thrown call changes nothing. */
  function ApplyRegeneration(s: AppState, id: int, outcome: Settled<GeneratedStory>): (r: AppState)
    ensures r.urls == s.urls && r.dayTitles == s.dayTitles
    ensures outcome.Rejected? ==> r == s
    ensures |r.stories| == |s.stories|
    ensures forall i :: 0 <= i < |s.stories| ==>
      r.stories[i].id == s.stories[i].id && r.stories[i].url == s.stories[i].url
    ensures forall i :: 0 <= i < |s.stories| && s.stories[i].id != id ==> r.stories[i] == s.stories[i]
    ensures forall i :: 0 <= i < |s.stories| && s.stories[i].id == id ==> RecordsOutcome(r.stories[i], outcome) || outcome.Rejected?
  {
    match outcome
    case Rejected(_) => s
    case Fulfilled(g) => s.(stories := UpdateWhere(s.stories, id, (st: Story) => st.WithGenerated(g)))
  }

  /** `handleRegenerate`: no call for an empty address; otherwise the
      address is sent and its outcome applied to the stories carrying `id`. */
  function Regenerate(s: AppState, url: string, id: int, call: StoryCall): (r: AppState)
    ensures url == "" ==> r == s
    ensures call(url).Rejected? ==> r == s
    ensures |r.stories| == |s.stories|
    ensures forall i :: 0 <= i < |s.stories| ==>
      && r.stories[i].id == s.stories[i].id && r.stories[i].url == s.stories[i].url
      && (s.stories[i].id != id ==> r.stories[i] == s.stories[i])
    ensures url != "" ==> r == ApplyRegeneration(s, id, call(url))
  {
    if url == "" then s else ApplyRegeneration(s, id, call(url))
  }

  /** `handleTextRegenerate`: no call when no story carries `id`; otherwise
      the first such story's current content is sent and the outcome
      applied. */
  function TextRegenerate(s: AppState, id: int, call: StoryCall): (r: AppState)
    ensures !HasId(s.stories, id) ==> r == s
    ensures |r.stories| == |s.stories|
    ensures forall i :: 0 <= i < |s.stories| ==>
      && r.stories[i].id == s.stories[i].id && r.stories[i].url == s.stories[i].url
      && (s.stories[i].id != id ==> r.stories[i] == s.stories[i])
    ensures HasId(s.stories, id) ==> r == ApplyRegeneration(s, id, call(Find(s.stories, id).value.content))
  {
    match Find(s.stories, id)
    case None => s
    case Some(st) => ApplyRegeneration(s, id, call(st.content))
  }

  /** The argument the "Regenerate" button of `story` sends, or `None` when
      no call is made: the address when the story has one, otherwise the
      current content of the first story carrying its id. */
  function RegenerationInput(s: AppState, story: Story): (r: Option<string>)
    ensures story.url != "" ==> r == Some(story.url)
    ensures story.url == "" ==> (r.Some? <==> HasId(s.stories, story.id))
    ensures story.url == "" && HasId(s.stories, story.id) ==> r == Some(Find(s.stories, story.id).value.content)
  {
    if story.url != "" then Some(story.url)
    else match Find(s.stories, story.id)
      case None => None
      case Some(st) => Some(st.content)
  }

  /** The "Regenerate" button: the address path for a story with an
      address, the free-text path for one without. */
  function ClickRegenerate(s: AppState, story: Story, call: StoryCall): (r: AppState)
    ensures story.url != "" ==> r == Regenerate(s, story.url, story.id, call)
    ensures story.url == "" ==> r == TextRegenerate(s, story.id, call)
    ensures RegenerationInput(s, story).None? ==> r == s
    ensures RegenerationInput(s, story).Some? ==>
      r == ApplyRegeneration(s, story.id, call(RegenerationInput(s, story).value))
  {
    if story.url != "" then Regenerate(s, story.url, story.id, call)
    else TextRegenerate(s, story.id, call)
  }

  /** Clicking the button of a listed story always makes a call: with its
      address when it has one, and with its own current content when it
      was added as free text. */
  lemma ClickListedStory(s: AppState, k: int)
    requires WellNumbered(s.stories) && 0 <= k < |s.stories|
    ensures RegenerationInput(s, s.stories[k]) ==
      Some(if s.stories[k].url != "" then s.stories[k].url else s.stories[k].content)
  {
    FindWellNumbered(s.stories, k + 1);
  }

  /** A story added as free text has no address, so its button always
      takes the text path and sends the story's content. */
  lemma AddedStoryTakesTextPath(s: AppState, call: StoryCall)
    requires WellNumbered(s.stories)
    ensures var a := AddTextStory(s); var st := a.stories[|s.stories|];
      && st.url == ""
      && ClickRegenerate(a, st, call) == TextRegenerate(a, st.id, call)
      && RegenerationInput(a, st) == Some(st.content)
  {
    var a := AddTextStory(s);
    ClickListedStory(a, |s.stories|);
  }

  /** The regeneration handlers only ever look at the network's answer to
      the argument they send: the address on the address path, the
      story's current content on the text path. */
  lemma RegenerationSendsInput(s: AppState, story: Story, c1: StoryCall, c2: StoryCall)
    requires RegenerationInput(s, story).Some?
    requires c1(RegenerationInput(s, story).value) == c2(RegenerationInput(s, story).value)
    ensures ClickRegenerate(s, story, c1) == ClickRegenerate(s, story, c2)
  {
  }

  /** An edit survives a regeneration of another story: edits and
      regenerations of different ids commute. */
  lemma EditCommutesWithRegeneration(s: AppState, id: int, newContent: string, other: int, outcome: Settled<GeneratedStory>)
    requires id != other
    ensures ApplyRegeneration(EditStory(s, id, newContent), other, outcome)
         == EditStory(ApplyRegeneration(s, other, outcome), id, newContent)
  {
    var a := ApplyRegeneration(EditStory(s, id, newContent), other, outcome);
    var b := EditStory(ApplyRegeneration(s, other, outcome), id, newContent);
    assert a.stories == b.stories;
  }

  // ---------------------------------------------------------------------
  // Radio intro
  // ---------------------------------------------------------------------

  function Contents(stories: seq<Story>): (r: seq<string>)
    ensures |r| == |stories|
    ensures forall i :: 0 <= i < |r| ==> r[i] == stories[i].content
  {
    seq(|stories|, i requires 0 <= i < |stories| => stories[i].content)
  }

  /** The text the intro handler sends: every story's content, in list
      order, joined with `", "`. */
  function IntroInput(stories: seq<Story>): (r: string)
    ensures |stories| == 0 ==> r == ""
    ensures |stories| == 1 ==> r == stories[0].content
    ensures |stories| >= 2 ==> |r| >= 2 * (|stories| - 1)
    ensures |stories| >= 2 ==>
      r == Join(Contents(stories[..|stories| - 1]), ", ") + ", " + stories[|stories| - 1].content
  {
    if |stories| >= 2 then
      var init := stories[..|stories| - 1];
      assert Contents(stories) == Contents(init) + [stories[|stories| - 1].content];
      JoinAppend(Contents(init), stories[|stories| - 1].content, ", ");
      Join(Contents(stories), ", ")
    else
      Join(Contents(stories), ", ")
  }

  /** The argument of the intro call, or `None` when the handler skips the
      call: it is skipped exactly when there is no story, or a single story
      with empty content. */
  function IntroRequest(stories: seq<Story>): (r: Option<string>)
    ensures r.None? <==> |stories| == 0 || (|stories| == 1 && stories[0].content == "")
    ensures r.Some? ==> r.value == IntroInput(stories)
  {
    JoinEmptyIff(Contents(stories), ", ");
    var titles := IntroInput(stories);
    if titles == "" then None else Some(titles)
  }

  /** Empty contents still count: each story adds a separator and its
      text, so two empty stories send `", "`. */
  lemma IntroInputAppend(stories: seq<Story>, st: Story)
    requires |stories| >= 1
    ensures IntroInput(stories + [st]) == IntroInput(stories) + ", " + st.content
  {
    assert Contents(stories + [st]) == Contents(stories) + [st.content];
    JoinAppend(Contents(stories), st.content, ", ");
  }

  /** Two stories with empty content do not skip the call. */
  lemma TwoBlankStoriesCallIntro(stories: seq<Story>)
    requires |stories| == 2 && stories[0].content == "" && stories[1].content == ""
    ensures IntroRequest(stories) == Some(", ")
  {
    IntroInputAppend(stories[..1], stories[1]);
    assert stories[..1] + [stories[1]] == stories;
    assert Contents(stories[..1]) == [""];
    assert "" + ", " + "" == ", ";
  }

  /** `handleGenerateRadioIntro`: only the intro text can change; it is
      replaced by the response content when the call is made and succeeds,
      and kept when the call is skipped or throws. */
  function GenerateIntro(s: AppState, call: IntroCall): (r: AppState)
    ensures r.urls == s.urls && r.stories == s.stories
    ensures IntroRequest(s.stories).None? ==> r == s
    ensures IntroRequest(s.stories).Some? ==>
      var outcome := call(IntroInput(s.stories));
      && (outcome.Rejected? ==> r == s)
      && (outcome.Fulfilled? ==> r.dayTitles == outcome.value.content)
  {
    match IntroRequest(s.stories)
    case None => s
    case Some(titles) =>
      match call(titles)
      case Rejected(_) => s
      case Fulfilled(resp) => s.(dayTitles := resp.content)
  }

  // ---------------------------------------------------------------------
  // Sessions
  // ---------------------------------------------------------------------

  /** Everything the operator can do: type into the two text boxes, submit
      a batch, edit a story, add a free-text story, press a story's
      "Regenerate" button, or request the intro. */
  datatype Action =
    | TypeUrls(text: string)
    | Submit(calls: BatchCalls)
    | Edit(id: int, content: string)
    | AddText
    | PressRegenerate(story: Story, regenerate: StoryCall)
    | TypeIntro(text: string)
    | RequestIntro(intro: IntroCall)

  /** One handler run to completion. Position-derived ids survive every
      step. */
  function Step(s: AppState, a: Action): (r: AppState)
    ensures WellNumbered(s.stories) ==> WellNumbered(r.stories)
  {
    match a
    case TypeUrls(text) => s.(urls := text)
    case Submit(calls) => Generate(s, calls)
    case Edit(id, content) => EditStory(s, id, content)
    case AddText => AddTextStory(s)
    case PressRegenerate(story, call) => ClickRegenerate(s, story, call)
    case TypeIntro(text) => s.(dayTitles := text)
    case RequestIntro(call) => GenerateIntro(s, call)
  }

  /** A session: the actions applied in order. */
  function Run(s: AppState, actions: seq<Action>): AppState
    decreases |actions|
  {
    if |actions| == 0 then s else Run(Step(s, actions[0]), actions[1..])
  }

  /** Every session keeps `stories[i].id == i + 1`. */
  lemma {:induction false} RunKeepsNumbering(s: AppState, actions: seq<Action>)
    requires WellNumbered(s.stories)
    ensures WellNumbered(Run(s, actions).stories)
    decreases |actions|
  {
    if |actions| > 0 {
      RunKeepsNumbering(Step(s, actions[0]), actions[1..]);
    }
  }

  /** In every state reachable from the empty editor, ids are unique and
      id `k` finds the story at position `k - 1`, however batches, edits,
      additions and regenerations interleave. */
  lemma ReachableIdsUnique(actions: seq<Action>, id: int)
    ensures UniqueIds(Run(Initial, actions).stories)
    ensures var st := Run(Initial, actions).stories;
      1 <= id <= |st| ==> Find(st, id) == Some(st[id - 1])
  {
    RunKeepsNumbering(Initial, actions);
    var st := Run(Initial, actions).stories;
    WellNumberedUnique(st);
    FindWellNumbered(st, id);
  }
}

=== FILE: outcomes.dfy ===
/** Optional values and the settled result of an awaited network call.

    The editor awaits remote calls inside `try`/`catch`; a call either
    fulfils with a response body or throws. `Settled` is that outcome as a
    value, so every handler becomes a pure function of its inputs.
 */
module Outcomes {

  /** A TypeScript optional field: `undefined` or a value. */
  datatype Option<+T> = None | Some(value: T)

  /** What a `catch (error)` clause can receive: an `Error` object carrying
      a message, or any other thrown value. */
  datatype Thrown = ErrorObject(message: string) | OtherValue

  /** The message the batch handler records for a thrown value: the
      `Error`'s own message, or a fixed fallback for anything else. */
  function FailureMessage(t: Thrown): (m: string)
    ensures t.ErrorObject? ==> m == t.message
    ensures t.OtherValue? ==> m == "An unknown error occurred"
  {
    match t
    case ErrorObject(msg) => msg
    case OtherValue => UnknownErrorMessage
  }

  const UnknownErrorMessage: string := "An unknown error occurred"

  /** The settled result of one awaited call. */
  datatype Settled<+T> = Fulfilled(value: T) | Rejected(reason: Thrown)
}

=== FILE: stories.dfy ===
/** The story collection: the `Story` record of the editor and the by-id
    lookups and rewrites its handlers perform on the list of stories.
 */
module Stories {
  import opened Outcomes

  /** One citation attached by the generation backend. */
  datatype Source = Source(title: string, uri: string)

  /** The body the generation endpoint responds with. `overallConfidence`
      is carried as an opaque number: the editor only stores and displays
      it, so the model never does arithmetic on it. */
  datatype GeneratedStory = GeneratedStory(
    content: string,
    sources: seq<Source>,
    overallConfidence: real,
    error: Option<string>)

  /** One story draft. `url` is the source address for a story created by
      a batch and `""` for a story the operator added as free text; every
      path that creates a story sets `sources`, `overallConfidence` and
      `url`, so only `error` is optional here. */
  datatype Story = Story(
    id: int,
    content: string,
    error: Option<string>,
    sources: seq<Source>,
    overallConfidence: real,
    url: string)
  {
    /** The story with its text replaced. */
    function WithContent(newContent: string): Story {
      this.(content := newContent)
    }

    /** The story with its generated fields taken from a response body. */
    function WithGenerated(g: GeneratedStory): Story {
      this.(content := g.content, sources := g.sources,
            overallConfidence := g.overallConfidence, error := g.error)
    }
  }

  /** Positions and ids agree: the story at index `i` has id `i + 1`. */
  predicate WellNumbered(stories: seq<Story>) {
    forall i :: 0 <= i < |stories| ==> stories[i].id == i + 1
  }

  /** No two stories share an id. */
  predicate UniqueIds(stories: seq<Story>) {
    forall i, j :: 0 <= i < |stories| && 0 <= j < |stories| && stories[i].id == stories[j].id ==> i == j
  }

  predicate HasId(stories: seq<Story>, id: int) {
    exists i :: 0 <= i < |stories| && stories[i].id == id
  }

  /** Position-derived ids are unique ids. */
  lemma WellNumberedUnique(stories: seq<Story>)
    requires WellNumbered(stories)
    ensures UniqueIds(stories)
  {
  }

  /** Position `i` holds the first story carrying `id`. */
  predicate IsFirstWithId(stories: seq<Story>, id: int, i: int) {
    && 0 <= i < |stories|
    && stories[i].id == id
    && forall j :: 0 <= j < i ==> stories[j].id != id
  }

  /** `stories.find(s => s.id === id)`: the first story carrying `id`. */
  function Find(stories: seq<Story>, id: int): (r: Option<Story>)
    ensures r.None? <==> !HasId(stories, id)
    ensures r.Some? ==> exists i :: IsFirstWithId(stories, id, i) && stories[i] == r.value
    decreases |stories|
  {
    if |stories| == 0 then None
    else if stories[0].id == id then Some(stories[0])
    else
      var r := Find(stories[1..], id);
      assert HasId(stories, id) ==> HasId(stories[1..], id) by {
        if HasId(stories, id) {
          var i :| 0 <= i < |stories| && stories[i].id == id;
          assert stories[1..][i - 1].id == id;
        }
      }
      assert r.Some? ==> exists i :: IsFirstWithId(stories, id, i) && stories[i] == r.value by {
        if r.Some? {
          var i :| IsFirstWithId(stories[1..], id, i) && stories[1..][i] == r.value;
          assert IsFirstWithId(stories, id, i + 1);
        }
      }
      r
  }

  /** In a well-numbered list, id `k` names exactly the story at position
      `k - 1`. */
  lemma FindWellNumbered(stories: seq<Story>, id: int)
    requires WellNumbered(stories)
    ensures 1 <= id <= |stories| ==> Find(stories, id) == Some(stories[id - 1])
    ensures !(1 <= id <= |stories|) ==> Find(stories, id) == None
  {
    if 1 <= id <= |stories| {
      assert stories[id - 1].id == id;
    }
  }

  /** `stories.map(s => s.id === id ? f(s) : s)`: rewrites every story
      carrying `id` and keeps every other one as it is. */
  function UpdateWhere(stories: seq<Story>, id: int, f: Story -> Story): (r: seq<Story>)
    ensures |r| == |stories|
    ensures forall i :: 0 <= i < |r| ==> r[i] == (if stories[i].id == id then f(stories[i]) else stories[i])
  {
    seq(|stories|, i requires 0 <= i < |stories| => if stories[i].id == id then f(stories[i]) else stories[i])
  }
}

=== FILE: text.dfy ===
/** The string operations the editor applies to operator input: JavaScript's
    `trim`, `split` on a one-character separator and `join`, and the
    comma-separated URL parse built from them.
 */
module Text {

  /** The characters `trim` strips in this model. JavaScript strips every
      Unicode space separator and line terminator; the model keeps an
      explicit subset: space, tab, line feed, vertical tab, form feed,
      carriage return, no-break space, line and paragraph separators and
      the byte-order mark. */
  predicate IsWhitespace(c: char) {
    || c == ' ' || c == '\t' || c == '\n' || c == '\U{000B}' || c == '\U{000C}'
    || c == '\r' || c == '\U{00A0}' || c == '\U{2028}' || c == '\U{2029}'
    || c == '\U{FEFF}'
  }

  /** The characters occurring in `s`. */
  function Chars(s: string): set<char> {
    set c | c in s
  }

  predicate AllWhitespace(s: string) {
    forall i :: 0 <= i < |s| ==> IsWhitespace(s[i])
  }

  /** Neither end of `s` is whitespace: `trim` would leave it alone. */
  predicate IsTrimmed(s: string) {
    |s| == 0 || (!IsWhitespace(s[0]) && !IsWhitespace(s[|s| - 1]))
  }

  /** `String.prototype.trim`: strips whitespace from both ends. The result
      has no whitespace at either end and holds only characters of `s`. */
  function Trim(s: string): (r: string)
    ensures IsTrimmed(r)
    ensures |r| <= |s|
    ensures Chars(r) <= Chars(s)
    decreases |s|
  {
    if |s| > 0 && IsWhitespace(s[0]) then
      assert Chars(s[1..]) <= Chars(s) by { assert s == [s[0]] + s[1..]; }
      Trim(s[1..])
    else if |s| > 0 && IsWhitespace(s[|s| - 1]) then
      assert Chars(s[..|s| - 1]) <= Chars(s) by { assert s == s[..|s| - 1] + [s[|s| - 1]]; }
      Trim(s[..|s| - 1])
    else s
  }

  /** Whitespace after a trimmed non-empty core is stripped. */
  lemma {:induction false} TrimTrailing(core: string, trail: string)
    requires AllWhitespace(trail)
    requires |core| > 0 && IsTrimmed(core)
    ensures Trim(core + trail) == core
    decreases |trail|
  {
    var s := core + trail;
    assert s[0] == core[0];
    if |trail| == 0 {
      assert s == core;
    } else {
      assert s[..|s| - 1] == core + trail[..|trail| - 1];
      TrimTrailing(core, trail[..|trail| - 1]);
    }
  }

  /** An independent description of `Trim`: whatever whitespace surrounds a
      trimmed non-empty core, trimming returns exactly that core. */
  lemma {:induction false} TrimUnique(lead: string, core: string, trail: string)
    requires AllWhitespace(lead) && AllWhitespace(trail)
    requires |core| > 0 && IsTrimmed(core)
    ensures Trim(lead + core + trail) == core
    decreases |lead|
  {
    if |lead| == 0 {
      assert lead + core + trail == core + trail;
      TrimTrailing(core, trail);
    } else {
      assert (lead + core + trail)[1..] == lead[1..] + core + trail;
      TrimUnique(lead[1..], core, trail);
    }
  }

  /** `trim` leaves a string that has no whitespace at either end alone. */
  lemma TrimTrimmed(s: string)
    requires IsTrimmed(s)
    ensures Trim(s) == s
  {
  }

  /** `trim` yields the empty string exactly when every character is
      whitespace: the truthiness test on `urls.trim()`. */
  lemma {:induction false} TrimEmptyIffBlank(s: string)
    ensures Trim(s) == "" <==> AllWhitespace(s)
    decreases |s|
  {
    if |s| > 0 && IsWhitespace(s[0]) {
      TrimEmptyIffBlank(s[1..]);
      assert s == [s[0]] + s[1..];
    } else if |s| > 0 && IsWhitespace(s[|s| - 1]) {
      TrimEmptyIffBlank(s[..|s| - 1]);
      assert s == s[..|s| - 1] + [s[|s| - 1]];
    }
  }

  /** `s.split(sep)`: the pieces between consecutive separators, in order.
      There is always at least one piece, no piece contains the separator,
      and pieces only hold characters of `s`. */
  function Split(s: string, sep: char): (r: seq<string>)
    ensures |r| >= 1
    ensures forall i :: 0 <= i < |r| ==> sep !in r[i]
    ensures forall i :: 0 <= i < |r| ==> Chars(r[i]) <= Chars(s)
    decreases |s|
  {
    if |s| == 0 then [""]
    else
      var rest := Split(s[1..], sep);
      assert Chars(s) == {s[0]} + Chars(s[1..]) by {
        assert s == [s[0]] + s[1..];
      }
      if s[0] == sep then [""] + rest
      else [[s[0]] + rest[0]] + rest[1..]
  }

  /** `parts.join(sep)`: the pieces with `sep` between neighbours. The join
      of no pieces is the empty string; otherwise it starts with the first
      piece and holds a separator between each pair of neighbours. */
  function Join(parts: seq<string>, sep: string): (r: string)
    ensures |parts| == 0 ==> r == ""
    ensures |parts| >= 1 ==> |r| >= (|parts| - 1) * |sep| + |parts[0]|
    ensures |parts| >= 1 ==> |parts[0]| <= |r| && r[..|parts[0]|] == parts[0]
    decreases |parts|
  {
    if |parts| == 0 then ""
    else if |parts| == 1 then parts[0]
    else parts[0] + sep + Join(parts[1..], sep)
  }

  /** Appending a piece appends a separator and the piece to the join. */
  lemma {:induction false} JoinAppend(parts: seq<string>, last: string, sep: string)
    requires |parts| >= 1
    ensures Join(parts + [last], sep) == Join(parts, sep) + sep + last
    decreases |parts|
  {
    if |parts| > 1 {
      assert (parts + [last])[1..] == parts[1..] + [last];
      JoinAppend(parts[1..], last, sep);
    } else {
      assert (parts + [last])[1..] == [last];
    }
  }

  /** Joining with a non-empty separator gives the empty string exactly when
      there is no piece, or a single empty piece. */
  lemma JoinEmptyIff(parts: seq<string>, sep: string)
    requires |sep| > 0
    ensures Join(parts, sep) == "" <==> |parts| == 0 || (|parts| == 1 && parts[0] == "")
  {
  }

  /** A string with no separator splits into just itself. */
  lemma {:induction false} SplitWithoutSeparator(s: string, sep: char)
    requires sep !in s
    ensures Split(s, sep) == [s]
    decreases |s|
  {
    if |s| > 0 {
      assert s == [s[0]] + s[1..];
      SplitWithoutSeparator(s[1..], sep);
    }
  }

  /** Splitting a string one character at a time. */
  lemma SplitCons(c: char, t: string, sep: char)
    ensures Split([c] + t, sep) ==
      (if c == sep then [""] + Split(t, sep)
       else [[c] + Split(t, sep)[0]] + Split(t, sep)[1..])
  {
    assert ([c] + t)[0] == c;
    assert ([c] + t)[1..] == t;
  }

  /** Prefixing a character to the first of the pieces of `pa` commutes
      with appending the pieces `pb`. */
  lemma ExtendFirstPiece(c: char, pa: seq<string>, pb: seq<string>)
    requires |pa| >= 1
    ensures [[c] + (pa + pb)[0]] + (pa + pb)[1..] == ([[c] + pa[0]] + pa[1..]) + pb
  {
    assert (pa + pb)[0] == pa[0];
    assert (pa + pb)[1..] == pa[1..] + pb;
  }

  /** One character in front of `t` extends the distribution of splitting
      over the separator between `t` and `b`. */
  lemma SplitAroundCons(c: char, t: string, b: string, sep: char)
    requires Split(t + [sep] + b, sep) == Split(t, sep) + Split(b, sep)
    ensures Split([c] + t + [sep] + b, sep) == Split([c] + t, sep) + Split(b, sep)
  {
    assert [c] + t + [sep] + b == [c] + (t + [sep] + b);
    SplitCons(c, t + [sep] + b, sep);
    SplitCons(c, t, sep);
    if c != sep {
      ExtendFirstPiece(c, Split(t, sep), Split(b, sep));
    } else {
      assert [""] + (Split(t, sep) + Split(b, sep)) == ([""] + Split(t, sep)) + Split(b, sep);
    }
  }

  /** Splitting distributes over a separator: the pieces of `a + sep + b` are
      the pieces of `a` followed by the pieces of `b`. */
  lemma {:induction false} SplitAround(a: string, b: string, sep: char)
    ensures Split(a + [sep] + b, sep) == Split(a, sep) + Split(b, sep)
    decreases |a|
  {
    if |a| == 0 {
      assert a + [sep] + b == [sep] + b;
      SplitCons(sep, b, sep);
    } else {
      assert a == [a[0]] + a[1..];
      SplitAround(a[1..], b, sep);
      SplitAroundCons(a[0], a[1..], b, sep);
    }
  }

  /** Round trip one way: joining the pieces back with the separator
      restores the original string. */
  lemma {:induction false} JoinSplit(s: string, sep: char)
    ensures Join(Split(s, sep), [sep]) == s
    decreases |s|
  {
    if |s| > 0 {
      var rest := Split(s[1..], sep);
      JoinSplit(s[1..], sep);
      if s[0] == sep {
        assert Split(s, sep) == [""] + rest;
        if |rest| == 1 {
          assert Join(Split(s, sep), [sep]) == "" + [sep] + rest[0];
        } else {
          assert ([""] + rest)[1..] == rest;
        }
      } else {
        var parts := Split(s, sep);
        assert parts == [[s[0]] + rest[0]] + rest[1..];
        if |rest| == 1 {
          assert Join(parts, [sep]) == [s[0]] + rest[0];
        } else {
          assert parts[1..] == rest[1..];
          assert Join(rest, [sep]) == rest[0] + [sep] + Join(rest[1..], [sep]);
        }
      }
    }
  }

  /** Round trip the other way: separator-free pieces joined with the
      separator split back into the same pieces. */
  lemma {:induction false} SplitJoin(parts: seq<string>, sep: char)
    requires |parts| >= 1
    requires forall i :: 0 <= i < |parts| ==> sep !in parts[i]
    ensures Split(Join(parts, [sep]), sep) == parts
    decreases |parts|
  {
    if |parts| == 1 {
      SplitWithoutSeparator(parts[0], sep);
    } else {
      SplitJoin(parts[1..], sep);
      SplitWithoutSeparator(parts[0], sep);
      SplitAround(parts[0], Join(parts[1..], [sep]), sep);
      assert [parts[0]] + parts[1..] == parts;
    }
  }

  /** `.map(url => url.trim())`. */
  function TrimAll(parts: seq<string>): (r: seq<string>)
    ensures |r| == |parts|
    ensures forall i :: 0 <= i < |r| ==> r[i] == Trim(parts[i])
  {
    seq(|parts|, i requires 0 <= i < |parts| => Trim(parts[i]))
  }

  /** Trimming every piece of a concatenation trims each half. */
  lemma TrimAllAppend(a: seq<string>, b: seq<string>)
    ensures TrimAll(a + b) == TrimAll(a) + TrimAll(b)
  {
    var l, r := TrimAll(a + b), TrimAll(a) + TrimAll(b);
    assert |l| == |r|;
    forall i | 0 <= i < |l|
      ensures l[i] == r[i]
    {
      if i < |a| {
        assert (a + b)[i] == a[i];
      } else {
        assert (a + b)[i] == b[i - |a|];
      }
    }
  }

  /** `.filter(url => url)`: keeps the non-empty strings, in order. Every
      non-empty string occurs in the result as often as in the input; with
      `NonEmptyAppend` this fixes the order as well. */
  function NonEmpty(parts: seq<string>): (r: seq<string>)
    ensures |r| <= |parts|
    ensures forall i :: 0 <= i < |r| ==> r[i] != "" && r[i] in parts
    ensures forall x :: x != "" ==> multiset(r)[x] == multiset(parts)[x]
    decreases |parts|
  {
    assert |parts| > 0 ==> parts == [parts[0]] + parts[1..];
    if |parts| == 0 then []
    else if parts[0] == "" then NonEmpty(parts[1..])
    else [parts[0]] + NonEmpty(parts[1..])
  }

  /** Filtering a concatenation filters each half. */
  lemma {:induction false} NonEmptyAppend(a: seq<string>, b: seq<string>)
    ensures NonEmpty(a + b) == NonEmpty(a) + NonEmpty(b)
    decreases |a|
  {
    if |a| > 0 {
      assert (a + b)[1..] == a[1..] + b;
      NonEmptyAppend(a[1..], b);
    } else {
      assert a + b == b;
    }
  }

  /** Filtering drops exactly the empty strings: a list of empty strings
      filters to nothing. */
  lemma {:induction false} NonEmptyOfBlanks(parts: seq<string>)
    requires forall i :: 0 <= i < |parts| ==> parts[i] == ""
    ensures NonEmpty(parts) == []
    decreases |parts|
  {
    if |parts| > 0 {
      NonEmptyOfBlanks(parts[1..]);
    }
  }

  /** A well-formed URL entry: non-empty, comma-free, already trimmed. */
  predicate IsEntry(e: string) {
    e != "" && ',' !in e && IsTrimmed(e)
  }

  /** `urls.split(',').map(url => url.trim()).filter(url => url)`: every
      entry is non-empty, comma-free and trimmed, and there are no more
      entries than comma-separated pieces. */
  function ParseUrls(text: string): (entries: seq<string>)
    ensures forall i :: 0 <= i < |entries| ==> IsEntry(entries[i])
    ensures |entries| <= |Split(text, ',')|
  {
    var pieces := Split(text, ',');
    TrimmedPiecesAreEntries(pieces);
    NonEmpty(TrimAll(pieces))
  }

  /** Trimming comma-free pieces and dropping the empty ones leaves only
      well-formed entries. */
  lemma {:induction false} TrimmedPiecesAreEntries(pieces: seq<string>)
    requires forall i :: 0 <= i < |pieces| ==> ',' !in pieces[i]
    ensures forall i :: 0 <= i < |NonEmpty(TrimAll(pieces))| ==> IsEntry(NonEmpty(TrimAll(pieces))[i])
    decreases |pieces|
  {
    if |pieces| > 0 {
      var t := Trim(pieces[0]);
      assert ',' !in t by {
        assert ',' !in Chars(pieces[0]);
      }
      TrimmedPiecesAreEntries(pieces[1..]);
      assert TrimAll(pieces)[1..] == TrimAll(pieces[1..]);
    }
  }

  /** Parsing preserves input order: the entries of `a + "," + b` are the
      entries of `a` followed by the entries of `b`. */
  lemma ParseUrlsAround(a: string, b: string)
    ensures ParseUrls(a + "," + b) == ParseUrls(a) + ParseUrls(b)
  {
    SplitAround(a, b, ',');
    var pa := Split(a, ',');
    var pb := Split(b, ',');
    TrimAllAppend(pa, pb);
    NonEmptyAppend(TrimAll(pa), TrimAll(pb));
  }

  /** A comma-free text parses to its trimmed self, or to nothing when it
      is blank. */
  lemma ParseUrlsSingle(text: string)
    requires ',' !in text
    ensures ParseUrls(text) == (if Trim(text) == "" then [] else [Trim(text)])
  {
    SplitWithoutSeparator(text, ',');
    assert TrimAll([text]) == [Trim(text)];
  }

  /** A string drawn from the characters of a blank string is blank. */
  lemma BlankWithin(s: string, t: string)
    requires Chars(s) <= Chars(t) && AllWhitespace(t)
    ensures AllWhitespace(s)
  {
    forall k | 0 <= k < |s|
      ensures IsWhitespace(s[k])
    {
      assert s[k] in Chars(t);
    }
  }

  /** Whitespace-only text yields no entries. */
  lemma ParseUrlsBlank(text: string)
    requires Trim(text) == ""
    ensures ParseUrls(text) == []
  {
    TrimEmptyIffBlank(text);
    var pieces := Split(text, ',');
    forall i | 0 <= i < |pieces|
      ensures TrimAll(pieces)[i] == ""
    {
      BlankWithin(pieces[i], text);
      TrimEmptyIffBlank(pieces[i]);
    }
    NonEmptyOfBlanks(TrimAll(pieces));
  }

  /** A comma-free, already trimmed non-empty entry parses to itself, with or
      without a space in front of it. */
  lemma ParseUrlsEntry(b: string)
    requires b != "" && ',' !in b && IsTrimmed(b)
    ensures ParseUrls(b) == [b]
    ensures ParseUrls(" " + b) == [b]
  {
    TrimTrimmed(b);
    ParseUrlsSingle(b);
    var b' := " " + b;
    TrimUnique(" ", b, "");
    assert " " + b + "" == b';
    assert ',' !in b' by {
      assert b' == [' '] + b;
    }
    ParseUrlsSingle(b');
  }

  /** Two addresses separated by a comma and a space, as an operator types
      them (`"http://a.test, http://b.test"`), parse to the two addresses. */
  lemma ParseTwoUrls(a: string, b: string)
    requires a != "" && ',' !in a && IsTrimmed(a)
    requires b != "" && ',' !in b && IsTrimmed(b)
    ensures ParseUrls(a + ", " + b) == [a, b]
  {
    assert a + ", " + b == a + "," + (" " + b);
    ParseUrlsAround(a, " " + b);
    ParseUrlsEntry(a);
    ParseUrlsEntry(b);
  }
}
